=== FILE: README.md ===
# Gaussian-process regression core of nispat, modelled in Dafny

This project models `nispat/gp.py` in Dafny and proves properties of the model. That file holds two parts:

- a family of covariance functions: the linear kernel `CovLin`, the isotropic squared exponential `CovSqExp`, and the squared exponential with one lengthscale per input dimension `CovSqExpARD`;
- the `GPR` class, which computes a posterior and keeps it in a single-slot cache. Its marginal likelihood `loglik`, gradient `dloglik`, hyperparameter search `estimate` and `predict` all read that cache.

The floating-point numerics are not modelled. Cholesky factorisation, triangular solves, `exp`, the likelihood and gradient formulas, and the pairwise squared distance are fields of a `Numerics.Provider` record of uninterpreted functions. Every property below holds for every such provider.

The control logic is modelled exactly:

- which exceptions are raised, and in what order;
- the freshness test of the cache;
- which attributes each method assigns before an exception escapes;
- the recovery values `1/eps` and `sign(dnlZ)/eps`;
- the optimizer-name dispatch.

Doubles that are only tested for finiteness are the tagged type `Floats.Float` (finite, +inf, -inf, NaN). `eps` is 2^-52.

Modules:

- `failures.dfy` (`Failures`): option, result and the Python exception kinds.
- `floats.dfy` (`Floats`): the finiteness tag, the `1/eps` sentinel, and the guards on the objective and the gradient.
- `matrices.dfy` (`Matrices`): dense real matrices, `x.dot(z.T)` and the entry-wise operations the kernels use.
- `numerics.dfy` (`Numerics`): the uninterpreted numerics.
- `covariance.dfy` (`Covariance`): the three kernels, with `cov` and `dcov`.
- `regression.dfy` (`Regression`): the `GPR` object as an immutable record. Each method is a pure transition that returns the new record, the caller's covariance object, and a result or an exception.
- `scenarios.dfy` (`Scenarios`): concrete worked cases.

Behaviour of the code that the model reproduces, and that a reader of the GPR docstring (gp.py:147-183) might not expect:

- The cache key is (hyp, covariance-object identity). X and y are not part of it, so a fresh key reuses the posterior for different data. `post` reassigns N and D from X before it runs the freshness test.
- `estimate` overwrites `hyp` with the optimizer's result but does not recompute the posterior. A later `predict` at that hyp therefore finds the key fresh and uses the alpha and L of the optimizer's last evaluation. `Scenarios.PredictAfterEstimateUsesStalePosterior` shows this on a concrete provider: the prediction uses the posterior computed at hyp [1] although it was asked for hyp [3].
- `CovLin.cov` reads `theta[0]` only until it has printed its notice. The `and` short-circuits on `first_call`, so an empty theta raises `IndexError` only on an instance that has not printed yet. `loglik` and `dloglik` do not catch `IndexError`, so a GPR with a fresh `CovLin` and a one-entry hyp always raises.
- `dloglik`'s recovery path reads the previous `self.dnlZ`. Until some earlier `dloglik` has reached line 276, that attribute does not exist, so the recovery raises `AttributeError`. Line 276 assigns the zero vector before the loop, so an earlier call whose `dcov` or trace term raised also leaves an attribute behind. It is partly filled, and a later recovery returns its signs over eps.
- The objective formula at line 243 and the trace term at line 285 run outside the `try`. So a `ValueError` they raise escapes `loglik` and `dloglik`. One example is a fresh key reused with a y whose length differs from the cached alpha (`Regression.LoglikFreshOtherLengthRaises`).
- `dloglik`'s guard against non-finite gradients replaces each infinite component by ±1/eps, but leaves NaN as NaN, because `np.sign(nan)` is NaN.
- `dcov` of the ARD kernel accepts the negative indices -D..-1 through Python's indexing from the end, so -k means the same parameter as D-k. An index below -D raises `IndexError`, not `ValueError`. `CovLin.dcov` accepts index 0 although the kernel has no parameters.
- When the Cholesky factorisation fails, `post` has already assigned `K`, while `L`, `alpha`, `hyp` and `covfunc` keep their old values.

## Model

| member | source | states |
|---|---|---|
| `Covariance.NParams` | nispat/gp.py:25-31 | `get_n_params` reports 0 exactly for CovLin. For the squared-exponential kernels the signal variance is the last parameter, so the count is its index plus one (counts set at lines 47, 76 and 116). |
| `Covariance.New` | nispat/gp.py:112-116 | ARD construction without a data matrix raises ValueError; for a two-dimensional matrix no other construction fails. The parameter count is 0 for CovLin, 2 for CovSqExp, and D+1 for ARD, where D is the column count of the matrix (lines 47 and 76 for the first two). A new CovLin has not printed its notice. |
| `Covariance.NoticeAtMostOnce` | nispat/gp.py:50-53 | Over any sequence of `cov` calls, the "unnecessary hyperparameter" notice fires at most once per instance, and never again once `first_call` is set. |
| `Covariance.Cov` | nispat/gp.py:50-128 | `cov` succeeds exactly on the accepted inputs. Otherwise it raises TypeError for a None theta (squared-exponential kernels), IndexError when theta is shorter than the parameter count or CovLin tests `theta[0]` of an empty theta, and ValueError for mismatched widths of x and z, for CovLin and ARD. CovSqExp leaves that check to `squared_dist`, which the model treats as never raising. CovLin's result is x·zᵀ. |
| `Covariance.CovDefaultsToSelf` | nispat/gp.py:55-56 | For every kernel, `cov(θ, x)` equals `cov(θ, x, x)`, because z defaults to x (also lines 82-83 and 122-123). |
| `Covariance.LinCovSymmetric` | nispat/gp.py:55-59 | CovLin's self-covariance is x·xᵀ and is symmetric. |
| `Matrices.GramSymmetric` | nispat/gp.py:58 | x.dot(x.T) is symmetric for every matrix x. |
| `Matrices.DotSymmetric` | nispat/gp.py:58 | The inner product behind x.dot(z.T) is symmetric in its arguments. |
| `Covariance.DcovIndexMatchesParams` | nispat/gp.py:112-139 | For the squared-exponential kernels a non-negative index is accepted by `dcov` exactly when it is below the parameter count. CovLin has no parameters, yet it accepts index 0 and only that. |
| `Covariance.Dcov` | nispat/gp.py:61-65 | CovLin's `dcov` succeeds exactly at index 0, where it returns the scalar 0. Every kernel succeeds only at an index it accepts. |
| `Covariance.DcovDispatch` | nispat/gp.py:89-139 | With a theta the kernel accepts, `dcov` succeeds exactly at index 0 (CovLin), indices 0-1 (CovSqExp), or -D..D (ARD). Any other index raises ValueError, except that an ARD index below -D raises IndexError. |
| `Covariance.DcovChecksThetaFirst` | nispat/gp.py:89-93 | For the squared-exponential kernels, a theta that `cov` rejects makes `dcov` raise the same error at every index, because the parameters are read before the index is tested. |
| `Covariance.SignalDerivativeIsTwiceKernel` | nispat/gp.py:98-100 | The signal-variance derivative equals 2·`cov(θ,x)` for CovSqExp (index 1) and for ARD (index D, lines 135-137), and it fails exactly when `cov` fails. |
| `Covariance.SqExpLengthscaleDerivative` | nispat/gp.py:95-97 | CovSqExp's lengthscale derivative equals `cov(θ,x)` ⊙ R entry by entry, where R is the squared distance of the scaled inputs. |
| `Covariance.ArdNegativeIndex` | nispat/gp.py:132-134 | The ARD derivative at index -k is the derivative at index D-k. |
| `Floats.SignOverEpsKeepsSign` | nispat/gp.py:268 | sign(x)/eps has the sign of x, and applying it twice gives the same value as applying it once. |
| `Floats.FixObjective` | nispat/gp.py:247-248 | The guarded objective is always finite. A finite value passes through unchanged; any other value becomes 1/eps. |
| `Floats.FixComponent` | nispat/gp.py:288-291 | The guard on one gradient component keeps a finite value, maps ±inf to ±1/eps, and leaves NaN as NaN. |
| `Floats.FixGradient` | nispat/gp.py:288-291 | Finite components are kept, +inf becomes 1/eps and -inf becomes -1/eps. A component is NaN afterwards exactly when it was NaN before, so every component is finite or NaN. |
| `Floats.FixGradientIdempotent` | nispat/gp.py:288-291 | Applying the gradient guard a second time changes nothing. |
| `Floats.SignAll` | nispat/gp.py:268 | The recovery gradient keeps the length and the component signs of the previous gradient. A component is finite exactly when the previous one was not NaN, and then its value is that sign times 1/eps. |
| `Regression.StaleIff` | nispat/gp.py:197-204 | `_updatepost` reports fresh exactly when hyp equals the stored hyp, a posterior exists, and covfunc is the stored object. X and y play no part. |
| `Regression.EmptyIsStale` | nispat/gp.py:188 | Under the initial `hyp = nan`, every key is stale, so the first call recomputes. Only an empty hyp compares equal to the initial NaN. |
| `Regression.Stale` | nispat/gp.py:197-204 | `_updatepost` reports stale when no posterior or no covfunc was ever stored, when the covariance object is another one, or when the stored hyp differs. |
| `Regression.Recompute` | nispat/gp.py:218-229 | Recomputation succeeds exactly when cov, then chol, then solve all succeed, as in `Posterior`. It then stores that K, L and alpha together with hyp and covfunc. Otherwise it raises the first failing step's exception. K is stored as soon as cov succeeds; hyp, alpha and covfunc keep their old values. |
| `Regression.Post` | nispat/gp.py:206-229 | N and D always come from X. A fresh key changes nothing else. On a stale key an empty hyp raises IndexError. Otherwise `post` succeeds exactly when `Posterior` does, and then caches its K, L and alpha. It raises `Posterior`'s exception otherwise. Success leaves the key fresh for (hyp, covfunc), failure leaves the key unchanged, and the object invariant is preserved. |
| `Regression.PostCholFailureEscapes` | nispat/gp.py:225-227 | A LinAlgError from the Cholesky factorisation escapes a direct `post`. K has been stored by then; L, alpha, hyp and covfunc have not. |
| `Regression.PostIgnoresData` | nispat/gp.py:210-216 | `post` on a fresh key succeeds and leaves everything except N and D unchanged, for any X and y. |
| `Regression.PostThenPostReuses` | nispat/gp.py:225-229 | Right after a successful `post`, a repeated `post` with the same hyp and covariance object recomputes nothing, even on other data. |
| `Regression.Loglik` | nispat/gp.py:231-253 | A returned value is finite and stored in nlZ. A ValueError or LinAlgError from recomputation gives 1/eps. Otherwise the result is the objective formula on the posterior now in place, with a non-finite value replaced by 1/eps. A recomputation exception other than ValueError or LinAlgError escapes unchanged. Any other exception that escapes is one the formula raised after the `try`. A fresh key changes only nlZ. |
| `Regression.LoglikFreshReadsCache` | nispat/gp.py:235-253 | On a fresh key, `loglik` evaluates the formula on the cached alpha, L and N for whatever y it is given. It returns the guarded value, or raises the formula's exception and changes nothing. |
| `Regression.LoglikFreshOtherLengthRaises` | nispat/gp.py:243 | When the dot product checks lengths, reusing a fresh key with a y of another length than the cached alpha raises ValueError, which `loglik` does not catch. |
| `Regression.CovTerms` | nispat/gp.py:281-285 | The gradient loop yields one term per parameter when every `dcov` and trace term succeeds. Otherwise it yields the terms before the first failing index and that index's exception. |
| `Regression.GuardedTerms` | nispat/gp.py:276-291 | When the loop completes, the guarded vector holds the noise term at position 0. It holds the term of covariance parameter i at position i+1, each through the non-finite guard. |
| `Regression.Gradient` | nispat/gp.py:271-296 | A returned gradient has len(hyp) entries, each finite or NaN, and is stored in dnlZ. Entry 0 is the guarded noise term computed from Q. Entry i+1 is the guarded trace term of `dcov` at index i. Every `dcov` call succeeded. A missing alpha, L or N raises AttributeError, and a failing Q raises its own exception; both leave everything unchanged. Otherwise the result is an error exactly when some covariance term raises. The error is the first such term's exception, and dnlZ then holds the noise term, the terms computed before it, and zeros. Only dnlZ changes. |
| `Regression.Dloglik` | nispat/gp.py:255-296 | An empty hyp raises IndexError. A caught recomputation failure returns sign(dnlZ)/eps of the attribute's current value, or raises AttributeError when the attribute was never assigned. Otherwise the result has len(hyp) entries and is stored. It is the guarded gradient of the posterior now in place, so ±inf components become ±1/eps and no component is infinite. A recomputation exception that is not caught escapes unchanged. Whenever the posterior is in place, the outcome, success or failure, is exactly that of the gradient computation on it. |
| `Regression.LowerMatches` | nispat/gp.py:302-311 | `optimizer.lower()` equals a lower-case word exactly when the optimizer name spells that word with each letter in either case. |
| `Regression.CgSpellings` | nispat/gp.py:302 | 'cg' is recognised exactly as cg, cG, Cg or CG. |
| `Regression.Replay` | nispat/gp.py:303-309 | The optimizer's sequence of `loglik`/`dloglik` evaluations keeps the covariance object's identity and preserves the object invariant. |
| `Regression.Estimate` | nispat/gp.py:299-317 | An unknown optimizer raises ValueError and changes nothing. On success, hyp and nlZ are the optimizer's output and the optimizer name is stored. The posterior is exactly as the optimizer's last evaluation left it. Success happens exactly when no evaluation raised. When one raises, its exception escapes, and the object is left as that evaluation left it, and estimate's own assignments to hyp, nlZ and the optimizer name do not happen. |
| `Regression.Predict` | nispat/gp.py:319-339 | Without a stored covfunc, `predict` raises AttributeError. A fresh key leaves the cache untouched; a stale key runs `post` on the stored covfunc. An exception from that `post` escapes, and the object is as `post` left it. After that an empty hyp raises IndexError. Otherwise the prediction succeeds exactly when both `cov` calls and the mean and variance formulas succeed. A successful prediction leaves the key fresh for hyp. Its mean is `Ks.dot(alpha)` and its variance is the variance formula, on the cached alpha and L, with Ks = cov(θ, Xs, X) and kss = cov(θ, Xs). |
| `Regression.EstimateThenPredictReuses` | nispat/gp.py:313-333 | After a successful `estimate`, `predict` at the returned hyp never recomputes, on any data. Its alpha, L and K are those of the optimizer's last evaluation. Its mean is Ks at the returned hyp applied to that last evaluation's alpha. |
| `Regression.Init` | nispat/gp.py:185-195 | The constructor runs `post` only when hyp, X and y are all given. With a covfunc, its outcome and attributes are exactly those of `post` on the freshly initialised object. A missing covfunc raises IndexError or AttributeError. Success stores a posterior for hyp. The invariant holds. |
| `Scenarios.LinearKernelOnColumn` | nispat/gp.py:50-65 | CovLin on X = [[1],[2],[3]] without theta gives exactly X·Xᵀ. `dcov` at index 1 raises ValueError; at index 0 it returns 0. |
| `Scenarios.LinWithoutThetaRaises` | nispat/gp.py:231-241 | A fresh CovLin with a one-entry hyp makes `loglik` and `dloglik` raise IndexError whenever the key is stale. |
| `Scenarios.GradientGuardKeepsNaN` | nispat/gp.py:288-291 | The gradient guard maps [NaN, +inf, -inf, 2] to [NaN, 1/eps, -1/eps, 2]. |
| `Scenarios.PredictAfterEstimateUsesStalePosterior` | nispat/gp.py:313-323 | On a concrete provider, `predict` at the estimated hyp [3] returns the mean computed at [1], while a posterior computed at [3] would differ. |

## Left out

- Cholesky factorisation, triangular solves, `exp`, `log` and the formulas for nlZ, Q, the gradient terms and the predictive mean and variance are uninterpreted `Provider` functions. These are floating-point numerics delegated to numpy.
- Floating-point rounding: products and sums on doubles are modelled as exact real arithmetic. This affects x·zᵀ, 2·sf2·E against 2·(sf2·E), and the column scaling x.dot(diag(1/ell)).
- Numerical-accuracy claims: L·Lᵀ ≈ K+σ²I, gradient checks, positive semi-definiteness of the squared-exponential kernels, and the claim that the optimizer never worsens the objective. These depend on float behaviour, `exp`, and scipy.
- `utils.squared_dist` is an uninterpreted function that never raises. So `CovSqExp.cov` with x and z of different widths returns a matrix here, including `predict`'s `cov(theta, Xs, X)`. The helper is not shown, and whatever it raises for such inputs is not modelled. `Covariance.DcovDispatch` assumes the helper's promise to return an N×M matrix.
- `scipy.optimize.fmin_cg` and `fmin_powell` are replaced by their observable effect: the sequence of `loglik`/`dloglik` evaluations they request and their output. `hyp0`, `tol` and `n_iter` reach the model only through that run. Gradient requests in a Powell run are skipped, because Powell's method is given no gradient. Exceptions raised by scipy itself are not modelled.
- `print` output and the `verbose` diagnostics are I/O. The notice's firing is modelled through CovLin's flag.
- Covariance.New: the data matrix is always two-dimensional. A one-dimensional x would make the ARD constructor raise IndexError at `x.shape[1]` (line 115); that case is not modelled.
- `post`'s reshape of a one-dimensional X into a column (lines 210-211) is not modelled: X is always a two-dimensional matrix.
- The hyp comparison treats vectors of different lengths as unequal. numpy would broadcast a length-1 vector or refuse the comparison.
- Regression.StaleIff: hyp entries are reals, so a stored hyp always equals itself. In the source a hyp containing NaN never compares equal, and its key is always stale. So `StaleIff`, `PostThenPostReuses` and `EstimateThenPredictReuses` do not hold for such a hyp. NaN gradient components can lead the optimizer to one.
- Regression.PostThenPostReuses: hyp is stored as a value. In the source `self.hyp = hyp` stores a reference. A caller who changes that array in place after `post` changes the stored key with it, so the key stays fresh for the new contents.
- Entries of theta are reals, so the `theta[0] is not None` test is always true. A Python list containing None is not modelled.
- Which inputs make the uninterpreted formulas raise is left to the provider. The objective, the trace term, Q, the solves and the predictive formulas may each raise, and the model propagates what they raise. The shape errors computed inside the model are CovLin's x.dot(z.T), ARD's column scaling, and the entry-wise product in ARD's `dcov`. Broadcasting of size-1 axes is not modelled.
- The mutable attributes `ell` and `sf2` of the squared-exponential kernels are not modelled. They are recomputed on every call before they are read.
- The engine stores the covariance object as a value. If a caller uses the same CovLin elsewhere after handing it to the engine, the stored copy's notice flag can lag behind the real object's. Identity, which the cache compares, is unaffected.
- `CovBase.get_n_params`'s assertion on an uninitialised count is not modelled. Every constructor sets the count.
- `str.lower` is modelled as ASCII lower-casing. No other character lower-cases to a letter of 'cg' or 'powell'.

=== FILE: covariance.dfy ===
/** The covariance-function family of nispat/gp.py: the linear kernel `CovLin`, the
    isotropic squared exponential `CovSqExp` and the squared exponential with one
    lengthscale per input dimension `CovSqExpARD`. The matrices are concrete; `exp`,
    division and the pairwise squared distance come from a `Provider`. */
module Covariance {
  import opened Failures
  import opened Matrices
  import opened Numerics

  /** The kernel of an instance together with its mutable state. `noticed` is
      `CovLin.first_call`, which becomes true once the "unnecessary
      hyperparameter" notice has been printed; `d` is the ARD input dimension. */
  datatype Kind = Lin(noticed: bool) | SqExp | SqExpArd(d: nat)

  /** A covariance-function object. `id` stands for Python object identity,
      which is what `covfunc == self.covfunc` compares. */
  datatype CovFunc = CovFunc(id: nat, kind: Kind)

  /** The class being instantiated. */
  datatype Variant = LinVariant | SqExpVariant | ArdVariant

  /** `get_n_params`: the count each constructor stores. The signal variance
      is the last parameter of both squared-exponential kernels. */
  function NParams(cf: CovFunc): (n: nat)
    ensures cf.kind.Lin? <==> n == 0
    ensures !cf.kind.Lin? ==> n == SignalIndex(cf) + 1
  {
    match cf.kind
    case Lin(_) => 0
    case SqExp => 2
    case SqExpArd(d) => d + 1
  }

  /** The class constructors, with the optional data matrix `x`. */
  function New(id: nat, v: Variant, x: Option<Matrix>): (r: Result<CovFunc>)
    ensures r.Err? <==> v == ArdVariant && x.None?
    ensures r.Err? ==> r.error == ValueError(MissingData)
    ensures r.Ok? ==> r.value.id == id
    ensures r.Ok? && v == LinVariant ==> r.value.kind == Lin(false) && NParams(r.value) == 0
    ensures r.Ok? && v == SqExpVariant ==> NParams(r.value) == 2
    ensures r.Ok? && v == ArdVariant ==> NParams(r.value) == x.value.width + 1
  {
    match v
    case LinVariant => Ok(CovFunc(id, Lin(false)))
    case SqExpVariant => Ok(CovFunc(id, SqExp))
    case ArdVariant =>
      match x
      case None => Err(ValueError(MissingData))
      case Some(m) => Ok(CovFunc(id, SqExpArd(m.width)))
  }

  /** The cross argument `z` of `cov`, defaulting to `x`. */
  function Default(z: Option<Matrix>, x: Matrix): Matrix {
    match z
    case Some(m) => m
    case None => x
  }

  /** CovLin's notice condition: `not self.first_call and theta is not None and
      theta[0] is not None` (entries of a real vector are never None). */
  predicate Notices(cf: CovFunc, theta: Option<seq<real>>) {
    cf.kind.Lin? && !cf.kind.noticed && theta.Some? && |theta.value| > 0
  }

  /** The instance after a `cov` call: only the notice flag can change. */
  function CovAfter(cf: CovFunc, theta: Option<seq<real>>): (r: CovFunc)
    ensures r.id == cf.id && NParams(r) == NParams(cf)
  {
    if Notices(cf, theta) then cf.(kind := Lin(true)) else cf
  }

  /** How many notices a run of `cov` calls with the given thetas prints. */
  function NoticeCount(cf: CovFunc, thetas: seq<Option<seq<real>>>): nat
    decreases |thetas|
  {
    if |thetas| == 0 then 0
    else (if Notices(cf, thetas[0]) then 1 else 0) + NoticeCount(CovAfter(cf, thetas[0]), thetas[1..])
  }

  /** The notice is printed at most once per instance, and never again once printed. */
  lemma {:induction false} NoticeAtMostOnce(cf: CovFunc, thetas: seq<Option<seq<real>>>)
    ensures NoticeCount(cf, thetas) <= 1
    ensures cf.kind != Lin(false) ==> NoticeCount(cf, thetas) == 0
    decreases |thetas|
  {
    if |thetas| > 0 {
      NoticeAtMostOnce(CovAfter(cf, thetas[0]), thetas[1..]);
    }
  }

  /** `np.exp(-R/2)` on one entry. */
  function Decay(nm: Provider): real -> real {
    r => nm.exp(-r / 2.0)
  }

  /** Division of one entry by the lengthscale. */
  function Over(nm: Provider, ell: real): real -> real {
    v => nm.div(v, ell)
  }

  /** `sf2 * np.exp(-R/2)`. */
  function Kernel(nm: Provider, sf2: real, r: Matrix): (k: Matrix)
    ensures SameShape(k, r)
  {
    Scale(sf2, Apply(Decay(nm), r))
  }

  /** `np.exp(2*s)`: the signal variance from its log-parameter. */
  function SignalVar(nm: Provider, s: real): real {
    nm.exp(2.0 * s)
  }

  /** CovSqExp's `R = squared_dist(x/ell, z/ell)` with `ell = np.exp(theta[0])`. */
  function SqExpDist(nm: Provider, t: seq<real>, x: Matrix, z: Matrix): Matrix
    requires |t| >= 2
  {
    var ell := nm.exp(t[0]);
    nm.sqdist(Apply(Over(nm, ell), x), Apply(Over(nm, ell), z))
  }

  /** CovSqExpARD's `1./self.ell` for `ell = np.exp(theta[0:D])`. */
  function ArdScales(nm: Provider, t: seq<real>, d: nat): (s: seq<real>)
    requires |t| > d
    ensures |s| == d
  {
    seq(d, i requires 0 <= i < d => nm.div(1.0, nm.exp(t[i])))
  }

  /** CovSqExpARD's `squared_dist(x[:, c]/ell[c], x[:, c]/ell[c])`. */
  function ColumnDist(nm: Provider, t: seq<real>, x: Matrix, c: nat): Matrix
    requires c < x.width && c < |t|
  {
    var col := Apply(Over(nm, nm.exp(t[c])), Column(x, c));
    nm.sqdist(col, col)
  }

  /** Whether `cov` subscripts theta past its end: theta has fewer entries than
      the kernel has parameters, or CovLin tests `theta[0]` of an empty theta
      because it has not printed its notice yet. */
  predicate ThetaTooShort(cf: CovFunc, theta: Option<seq<real>>) {
    theta.Some? && (|theta.value| < NParams(cf) || (cf.kind == Lin(false) && |theta.value| == 0))
  }

  /** The arguments for which `cov(theta, x, z)` returns instead of raising. */
  predicate CovAccepts(cf: CovFunc, theta: Option<seq<real>>, x: Matrix, z: Matrix) {
    match cf.kind
    case Lin(noticed) => (noticed || theta.None? || |theta.value| > 0) && x.width == z.width
    case SqExp => theta.Some? && |theta.value| >= 2
    case SqExpArd(d) => theta.Some? && |theta.value| > d && x.width == d && z.width == d
  }

  /** `cov(theta, x, z)`: the kernel matrix between the rows of x and of z (z = x when absent). */
  function Cov(nm: Provider, cf: CovFunc, theta: Option<seq<real>>, x: Matrix, z: Option<Matrix>): (r: Result<Matrix>)
    ensures r.Ok? <==> CovAccepts(cf, theta, x, Default(z, x))
    ensures r.Err? ==>
      r.error == (if theta.None? && !cf.kind.Lin? then TypeError
                  else if ThetaTooShort(cf, theta) then IndexError
                  else ValueError(ShapeMismatch))
    ensures r.Ok? && cf.kind.Lin? ==> r.value == Gram(x, Default(z, x))
  {
    match cf.kind
    case Lin(noticed) =>
      if !noticed && theta.Some? && |theta.value| == 0 then Err(IndexError)
      else
        var zz := Default(z, x);
        if x.width != zz.width then Err(ValueError(ShapeMismatch)) else Ok(Gram(x, zz))
    case SqExp =>
      if theta.None? then Err(TypeError)
      else if |theta.value| < 2 then Err(IndexError)
      else Ok(Kernel(nm, SignalVar(nm, theta.value[1]), SqExpDist(nm, theta.value, x, Default(z, x))))
    case SqExpArd(d) =>
      if theta.None? then Err(TypeError)
      else if |theta.value| <= d then Err(IndexError)
      else
        var zz := Default(z, x);
        if x.width != d || zz.width != d then Err(ValueError(ShapeMismatch))
        else
          var s := ArdScales(nm, theta.value, d);
          Ok(Kernel(nm, SignalVar(nm, theta.value[d]), nm.sqdist(ScaleColumns(x, s), ScaleColumns(zz, s))))
  }

  /** Leaving out `z` is the same call as passing `x` for it, for every kernel. */
  lemma CovDefaultsToSelf(nm: Provider, cf: CovFunc, theta: Option<seq<real>>, x: Matrix)
    ensures Cov(nm, cf, theta, x, None) == Cov(nm, cf, theta, x, Some(x))
  {
  }

  /** The linear kernel's self-covariance is x . x^T, hence symmetric. */
  lemma LinCovSymmetric(nm: Provider, cf: CovFunc, theta: Option<seq<real>>, x: Matrix)
    requires cf.kind.Lin?
    requires Cov(nm, cf, theta, x, None).Ok?
    ensures Cov(nm, cf, theta, x, None).value == Gram(x, x)
    ensures Symmetric(Cov(nm, cf, theta, x, None).value)
  {
    GramSymmetric(x);
  }

  /** The indices `dcov` accepts. Python indexes from the end for a negative
      column index, so ARD also accepts -D .. -1. */
  predicate DcovIndexValid(cf: CovFunc, i: int) {
    match cf.kind
    case Lin(_) => i == 0
    case SqExp => 0 <= i <= 1
    case SqExpArd(d) => 0 <= i + d && i <= d
  }

  /** The non-negative indices `dcov` accepts are exactly the parameter positions
      0 .. NParams-1 for the squared-exponential kernels; CovLin has no parameters
      yet accepts index 0. */
  lemma DcovIndexMatchesParams(cf: CovFunc, i: int)
    ensures !cf.kind.Lin? && 0 <= i ==> (DcovIndexValid(cf, i) <==> i < NParams(cf))
    ensures cf.kind.Lin? ==> NParams(cf) == 0 && (DcovIndexValid(cf, i) <==> i == 0)
  {
  }

  /** The index of the signal-variance parameter `log(sf)`. */
  function SignalIndex(cf: CovFunc): nat
    requires !cf.kind.Lin?
  {
    if cf.kind.SqExp? then 1 else cf.kind.d
  }

  function Lift(r: Result<Matrix>): (d: Result<Deriv>)
    ensures d.Ok? <==> r.Ok?
    ensures r.Ok? ==> d.value == Dense(r.value)
    ensures r.Err? ==> d.error == r.error
  {
    match r
    case Ok(m) => Ok(Dense(m))
    case Err(e) => Err(e)
  }

  /** `dcov(theta, x, i)`: the derivative of the self-covariance of x with respect
      to the i-th entry of theta. */
  function Dcov(nm: Provider, cf: CovFunc, theta: Option<seq<real>>, x: Matrix, i: int): (r: Result<Deriv>)
    ensures cf.kind.Lin? ==> (r.Ok? <==> i == 0)
    ensures cf.kind.Lin? && r.Ok? ==> r.value == Scalar(0.0)
    ensures r.Ok? ==> DcovIndexValid(cf, i)
  {
    match cf.kind
    case Lin(_) =>
      if i == 0 then Ok(Scalar(0.0)) else Err(ValueError(InvalidParameter))
    case SqExp =>
      if theta.None? then Err(TypeError)
      else if |theta.value| < 2 then Err(IndexError)
      else
        var t := theta.value;
        var sf2 := SignalVar(nm, t[1]);
        var r := SqExpDist(nm, t, x, x);
        if i == 0 then Lift(Hadamard(Kernel(nm, sf2, r), r))
        else if i == 1 then Ok(Dense(Scale(2.0 * sf2, Apply(Decay(nm), r))))
        else Err(ValueError(InvalidParameter))
    case SqExpArd(d) =>
      match Cov(nm, cf, theta, x, None)
      case Err(e) => Err(e)
      case Ok(k) =>
        if i < d then
          if i + d < 0 then Err(IndexError)
          else
            var c := if i < 0 then d + i else i;
            Lift(Hadamard(k, ColumnDist(nm, theta.value, x, c)))
        else if i == d then Ok(Dense(Scale(2.0, k)))
        else Err(ValueError(InvalidParameter))
  }

  /** With a theta the kernel accepts, and a distance helper that returns an
      N x M matrix, `dcov` succeeds exactly on the valid indices; any other index
      raises `ValueError`, except that an ARD index below -D fails on the column
      subscript with `IndexError`. */
  lemma DcovDispatch(nm: Provider, cf: CovFunc, theta: Option<seq<real>>, x: Matrix, i: int)
    requires PairwiseShaped(nm)
    requires cf.kind.Lin? || CovAccepts(cf, theta, x, x)
    ensures Dcov(nm, cf, theta, x, i).Ok? <==> DcovIndexValid(cf, i)
    ensures !DcovIndexValid(cf, i) && !(cf.kind.SqExpArd? && i + cf.kind.d < 0)
      ==> Dcov(nm, cf, theta, x, i) == Err(ValueError(InvalidParameter))
    ensures cf.kind.SqExpArd? && i + cf.kind.d < 0 ==> Dcov(nm, cf, theta, x, i) == Err(IndexError)
  {
  }

  /** For the squared-exponential kernels a theta `cov` rejects makes `dcov` raise
      the same error whatever the index: the parameters are read first. */
  lemma DcovChecksThetaFirst(nm: Provider, cf: CovFunc, theta: Option<seq<real>>, x: Matrix, i: int)
    requires !cf.kind.Lin?
    requires !CovAccepts(cf, theta, x, x)
    ensures Dcov(nm, cf, theta, x, i) == Err(Cov(nm, cf, theta, x, None).error)
  {
  }

  /** The signal-variance derivative is exactly twice the kernel, for both
      squared-exponential kernels, and fails exactly when `cov` does. */
  lemma SignalDerivativeIsTwiceKernel(nm: Provider, cf: CovFunc, theta: Option<seq<real>>, x: Matrix)
    requires !cf.kind.Lin?
    ensures Cov(nm, cf, theta, x, None).Ok? ==>
      Dcov(nm, cf, theta, x, SignalIndex(cf)) == Ok(Dense(Scale(2.0, Cov(nm, cf, theta, x, None).value)))
    ensures Cov(nm, cf, theta, x, None).Err? ==>
      Dcov(nm, cf, theta, x, SignalIndex(cf)) == Err(Cov(nm, cf, theta, x, None).error)
  {
    if cf.kind.SqExp? && theta.Some? && |theta.value| >= 2 {
      var t := theta.value;
      var sf2 := SignalVar(nm, t[1]);
      var e := Apply(Decay(nm), SqExpDist(nm, t, x, x));
      ScaleScale(2.0, sf2, e);
    }
  }

  /** CovSqExp's lengthscale derivative is the kernel times R, entry by entry. */
  lemma SqExpLengthscaleDerivative(nm: Provider, cf: CovFunc, t: seq<real>, x: Matrix)
    requires cf.kind.SqExp? && |t| >= 2
    ensures Cov(nm, cf, Some(t), x, None).Ok?
    ensures Hadamard(Cov(nm, cf, Some(t), x, None).value, SqExpDist(nm, t, x, x)).Ok?
    ensures Dcov(nm, cf, Some(t), x, 0)
      == Ok(Dense(Hadamard(Cov(nm, cf, Some(t), x, None).value, SqExpDist(nm, t, x, x)).value))
  {
  }

  /** A negative ARD index -k names the same lengthscale as D - k. */
  lemma ArdNegativeIndex(nm: Provider, cf: CovFunc, theta: Option<seq<real>>, x: Matrix, k: nat)
    requires cf.kind.SqExpArd? && 1 <= k <= cf.kind.d
    ensures Dcov(nm, cf, theta, x, -(k as int)) == Dcov(nm, cf, theta, x, cf.kind.d - k)
  {
  }
}

=== FILE: failures.dfy ===
/** Optional values, results, and the exception kinds the regression code raises
    or lets through from the libraries it calls. */
module Failures {

  datatype Option<+T> = None | Some(value: T)

  /** Why a `ValueError` was raised. */
  datatype Reason =
    | InvalidParameter   // `dcov` asked for a hyperparameter the kernel does not have
    | MissingData        // ARD kernel constructed without a data matrix
    | UnknownOptimizer   // `estimate` given neither 'cg' nor 'powell'
    | ShapeMismatch      // numpy refused to combine arrays of incompatible shapes

  /** Python exception classes, as far as the callers distinguish them. */
  datatype Error =
    | IndexError        // subscript past the end of a vector
    | TypeError         // subscript of None
    | AttributeError    // read of an attribute that was never assigned
    | LinAlgError       // matrix not positive definite / singular
    | ValueError(reason: Reason)

  datatype Result<+T> = Ok(value: T) | Err(error: Error)

  /** The exception classes `loglik` and `dloglik` catch around a posterior recomputation. */
  predicate Caught(e: Error) {
    e.LinAlgError? || e.ValueError?
  }

  /** Keeps only whether a computation succeeded, and its error if it did not. */
  function Forget<T>(r: Result<T>): (u: Result<()>)
    ensures u.Ok? <==> r.Ok?
    ensures r.Err? ==> u.error == r.error
  {
    match r
    case Ok(_) => Ok(())
    case Err(e) => Err(e)
  }
}

=== FILE: floats.dfy ===
/** Double-precision values as the likelihood code inspects them: only whether a
    value is finite, infinite or NaN matters, and the sentinel `1/eps`. */
module Floats {

  /** An IEEE double: a finite value, one of the two infinities, or NaN. */
  datatype Float = Finite(value: real) | PosInf | NegInf | NaN

  /** `np.finfo(float).eps`, the machine epsilon of a double, 2^-52. */
  const Eps: real := 1.0 / 4503599627370496.0

  /** `1/np.finfo(float).eps`, the large finite value substituted for unusable results. */
  const Sentinel: real := 1.0 / Eps

  predicate IsFinite(x: Float) {
    x.Finite?
  }

  /** `np.sign`: -1, 0 or 1, and NaN for NaN. */
  function Sign(x: Float): (r: Float)
    ensures r.NaN? <==> x.NaN?
    ensures r.Finite? ==> r.value == 1.0 || r.value == -1.0 || r.value == 0.0
  {
    match x
    case Finite(v) => Finite(if v > 0.0 then 1.0 else if v < 0.0 then -1.0 else 0.0)
    case PosInf => Finite(1.0)
    case NegInf => Finite(-1.0)
    case NaN => NaN
  }

  /** `np.sign(x) / eps`. */
  function SignOverEps(x: Float): (r: Float)
    ensures r.NaN? <==> x.NaN?
    ensures r.Finite? ==> r.value == Sentinel || r.value == -Sentinel || r.value == 0.0
    ensures x.PosInf? ==> r == Finite(Sentinel)
    ensures x.NegInf? ==> r == Finite(-Sentinel)
  {
    match Sign(x)
    case Finite(s) => Finite(s / Eps)
    case _ => NaN
  }

  /** The recovery value keeps the direction of the value it replaces. */
  lemma SignOverEpsKeepsSign(x: Float)
    ensures Sign(SignOverEps(x)) == Sign(x)
    ensures SignOverEps(SignOverEps(x)) == SignOverEps(x)
  {
  }

  /** `loglik`'s guard: a non-finite objective becomes the sentinel. */
  function FixObjective(x: Float): (r: Float)
    ensures IsFinite(r)
    ensures IsFinite(x) ==> r == x
    ensures !IsFinite(x) ==> r == Finite(Sentinel)
  {
    if IsFinite(x) then x else Finite(Sentinel)
  }

  /** `dloglik`'s guard on one component: a non-finite value is replaced by its
      sign over eps. NaN has sign NaN, so a NaN component survives the guard. */
  function FixComponent(x: Float): (r: Float)
    ensures IsFinite(x) ==> r == x
    ensures x.PosInf? ==> r == Finite(Sentinel)
    ensures x.NegInf? ==> r == Finite(-Sentinel)
    ensures r.NaN? <==> x.NaN?
  {
    if IsFinite(x) then x else SignOverEps(x)
  }

  /** `dloglik`'s guard on the whole gradient. */
  function FixGradient(g: seq<Float>): (r: seq<Float>)
    ensures |r| == |g|
    ensures forall i :: 0 <= i < |g| ==> r[i] == FixComponent(g[i])
    ensures forall i :: 0 <= i < |g| && IsFinite(g[i]) ==> r[i] == g[i]
    ensures forall i :: 0 <= i < |g| && g[i].PosInf? ==> r[i] == Finite(Sentinel)
    ensures forall i :: 0 <= i < |g| && g[i].NegInf? ==> r[i] == Finite(-Sentinel)
    ensures forall i :: 0 <= i < |g| ==> (r[i].NaN? <==> g[i].NaN?)
    ensures forall i :: 0 <= i < |g| ==> IsFinite(r[i]) || r[i].NaN?
  {
    seq(|g|, i requires 0 <= i < |g| => FixComponent(g[i]))
  }

  /** Applying the gradient guard twice changes nothing more. */
  lemma FixGradientIdempotent(g: seq<Float>)
    ensures FixGradient(FixGradient(g)) == FixGradient(g)
  {
  }

  /** `np.sign(v) / eps` on a whole vector: the failure answer of `dloglik`. */
  function SignAll(v: seq<Float>): (r: seq<Float>)
    ensures |r| == |v|
    ensures forall i :: 0 <= i < |v| ==> Sign(r[i]) == Sign(v[i])
    ensures forall i :: 0 <= i < |v| ==> (IsFinite(r[i]) <==> !v[i].NaN?)
    ensures forall i :: 0 <= i < |v| && IsFinite(r[i]) ==> r[i].value == Sign(v[i]).value * Sentinel
  {
    seq(|v|, i requires 0 <= i < |v| => SignOverEps(v[i]))
  }
}

=== FILE: matrices.dfy ===
/** Dense real matrices and the few numpy operations the kernels are built from:
    the product x . z^T, entrywise scaling, entrywise maps and products, column
    scaling by a diagonal matrix, and column extraction. */
module Matrices {
  import opened Failures

  /** A matrix stored row by row; the column count is kept separately so that
      shapes N x 0 and 0 x D are both representable. */
  datatype Mat = Mat(width: nat, rows: seq<seq<real>>)

  predicate Rectangular(m: Mat) {
    forall i :: 0 <= i < |m.rows| ==> |m.rows[i]| == m.width
  }

  /** A numpy 2-D array: every row has `width` entries. */
  type Matrix = m: Mat | Rectangular(m) witness Mat(0, [])

  /** What `dcov` hands back: a full matrix, or the 0-d array `np.asarray(0)`. */
  datatype Deriv = Scalar(c: real) | Dense(m: Matrix)

  function Height(m: Mat): nat {
    |m.rows|
  }

  predicate SameShape(a: Matrix, b: Matrix) {
    a.width == b.width && Height(a) == Height(b)
  }

  predicate Symmetric(m: Matrix) {
    && m.width == Height(m)
    && forall i, j :: 0 <= i < Height(m) && 0 <= j < Height(m) ==> m.rows[i][j] == m.rows[j][i]
  }

  /** Inner product of two equally long vectors. */
  function Dot(a: seq<real>, b: seq<real>): real
    requires |a| == |b|
  {
    if |a| == 0 then 0.0 else a[0] * b[0] + Dot(a[1..], b[1..])
  }

  lemma {:induction false} DotSymmetric(a: seq<real>, b: seq<real>)
    requires |a| == |b|
    ensures Dot(a, b) == Dot(b, a)
  {
    if |a| > 0 {
      DotSymmetric(a[1..], b[1..]);
    }
  }

  /** `x.dot(z.T)`: entry (i, j) is the inner product of row i of x and row j of z. */
  function Gram(x: Matrix, z: Matrix): (k: Matrix)
    requires x.width == z.width
    ensures Height(k) == Height(x) && k.width == Height(z)
    ensures forall i, j :: 0 <= i < Height(x) && 0 <= j < Height(z) ==> k.rows[i][j] == Dot(x.rows[i], z.rows[j])
  {
    Mat(|z.rows|, seq(|x.rows|, i requires 0 <= i < |x.rows| =>
      seq(|z.rows|, j requires 0 <= j < |z.rows| => Dot(x.rows[i], z.rows[j]))))
  }

  /** The product of a matrix with its own transpose is symmetric. */
  lemma GramSymmetric(x: Matrix)
    ensures Symmetric(Gram(x, x))
  {
    var k := Gram(x, x);
    forall i, j | 0 <= i < Height(k) && 0 <= j < Height(k)
      ensures k.rows[i][j] == k.rows[j][i]
    {
      DotSymmetric(x.rows[i], x.rows[j]);
    }
  }

  /** `c * m`. */
  function Scale(c: real, m: Matrix): (r: Matrix)
    ensures SameShape(r, m)
    ensures forall i, j :: 0 <= i < Height(m) && 0 <= j < m.width ==> r.rows[i][j] == c * m.rows[i][j]
  {
    Mat(m.width, seq(|m.rows|, i requires 0 <= i < |m.rows| =>
      seq(m.width, j requires 0 <= j < m.width => c * m.rows[i][j])))
  }

  /** Two matrices of one shape with the same entries are the same matrix. */
  lemma SameEntries(a: Matrix, b: Matrix)
    requires SameShape(a, b)
    requires forall i, j :: 0 <= i < Height(a) && 0 <= j < a.width ==> a.rows[i][j] == b.rows[i][j]
    ensures a == b
  {
    forall i | 0 <= i < Height(a)
      ensures a.rows[i] == b.rows[i]
    {
      assert |a.rows[i]| == |b.rows[i]|;
    }
  }

  /** Scaling twice is scaling once by the product. */
  lemma ScaleScale(a: real, b: real, m: Matrix)
    ensures Scale(a * b, m) == Scale(a, Scale(b, m))
  {
    var l := Scale(a * b, m);
    var r := Scale(a, Scale(b, m));
    forall i, j | 0 <= i < Height(l) && 0 <= j < l.width
      ensures l.rows[i][j] == r.rows[i][j]
    {
      assert l.rows[i][j] == (a * b) * m.rows[i][j];
      assert r.rows[i][j] == a * (b * m.rows[i][j]);
    }
    SameEntries(l, r);
  }

  /** A numpy ufunc applied entry by entry, e.g. `np.exp(-R/2)`. */
  function Apply(f: real -> real, m: Matrix): (r: Matrix)
    ensures SameShape(r, m)
    ensures forall i, j :: 0 <= i < Height(m) && 0 <= j < m.width ==> r.rows[i][j] == f(m.rows[i][j])
  {
    Mat(m.width, seq(|m.rows|, i requires 0 <= i < |m.rows| =>
      seq(m.width, j requires 0 <= j < m.width => f(m.rows[i][j]))))
  }

  /** `a * b` on two arrays: the entrywise product, or a `ValueError` when the
      shapes differ (numpy's broadcasting of size-1 axes is not modelled). */
  function Hadamard(a: Matrix, b: Matrix): (r: Result<Matrix>)
    ensures r.Ok? <==> SameShape(a, b)
    ensures r.Err? ==> r.error == ValueError(ShapeMismatch)
    ensures r.Ok? ==> SameShape(r.value, a)
    ensures r.Ok? ==> forall i, j :: 0 <= i < Height(a) && 0 <= j < a.width ==>
      r.value.rows[i][j] == a.rows[i][j] * b.rows[i][j]
  {
    if !SameShape(a, b) then Err(ValueError(ShapeMismatch))
    else Ok(Mat(a.width, seq(|a.rows|, i requires 0 <= i < |a.rows| =>
      seq(a.width, j requires 0 <= j < a.width => a.rows[i][j] * b.rows[i][j]))))
  }

  /** `m.dot(np.diag(v))`: column j scaled by v[j]. */
  function ScaleColumns(m: Matrix, v: seq<real>): (r: Matrix)
    requires |v| == m.width
    ensures SameShape(r, m)
    ensures forall i, j :: 0 <= i < Height(m) && 0 <= j < m.width ==> r.rows[i][j] == m.rows[i][j] * v[j]
  {
    Mat(m.width, seq(|m.rows|, i requires 0 <= i < |m.rows| =>
      seq(m.width, j requires 0 <= j < m.width => m.rows[i][j] * v[j])))
  }

  /** Column j of m, as an N x 1 matrix. */
  function Column(m: Matrix, j: nat): (r: Matrix)
    requires j < m.width
    ensures Height(r) == Height(m) && r.width == 1
    ensures forall i :: 0 <= i < Height(m) ==> r.rows[i] == [m.rows[i][j]]
  {
    Mat(1, seq(|m.rows|, i requires 0 <= i < |m.rows| => [m.rows[i][j]]))
  }
}

=== FILE: numerics.dfy ===
/** The floating-point numerics the regression code delegates to numpy, scipy and
    the distance helper, as uninterpreted functions. Every property of the model
    holds for every `Provider`, so nothing depends on how these are computed. */
module Numerics {
  import opened Failures
  import opened Floats
  import opened Matrices

  datatype Provider = Provider(
    /** `np.exp` on one entry. */
    exp: real -> real,
    /** Floating-point division, as in `x/ell` and `1./ell`. */
    div: (real, real) -> real,
    /** `utils.squared_dist(A, B)`: pairwise squared distances between rows. */
    sqdist: (Matrix, Matrix) -> Matrix,
    /** `chol(K + sn2*np.eye(N))`, failing with `LinAlgError` when not positive definite. */
    chol: (Matrix, real, nat) -> Result<Matrix>,
    /** `solve(L.T, solve(L, y))`, the weight vector alpha. */
    solve: (Matrix, seq<real>) -> Result<seq<real>>,
    /** `0.5*y.T.dot(alpha) + sum(log(diag(L))) + 0.5*N*log(2*pi)`, from (y, alpha, L, N);
        the dot product raises `ValueError` when y and alpha differ in length. */
    nlz: (seq<real>, seq<real>, Matrix, nat) -> Result<Float>,
    /** `Q = outer(alpha, alpha) - solve(L.T, solve(L, eye(N)))`, from (alpha, L, N). */
    precision: (seq<real>, Matrix, nat) -> Result<Matrix>,
    /** `-sn2*np.trace(Q)`, from (sn2, Q). */
    noiseGrad: (real, Matrix) -> Float,
    /** `-0.5*np.sum(np.sum(Q*dK.T))`, from (Q, dK); the entry-wise product raises
        `ValueError` when the shapes do not broadcast. */
    covGrad: (Matrix, Deriv) -> Result<Float>,
    /** `Ks.dot(alpha)`, the predictive mean. */
    mean: (Matrix, seq<real>) -> Result<seq<real>>,
    /** `kss - v.T.dot(v) + sn2` with `v = solve(L, Ks.T)`, from (kss, L, Ks, sn2). */
    variance: (Matrix, Matrix, Matrix, real) -> Result<Matrix>
  )

  /** numpy's length check in `y.T.dot(alpha)`: vectors of different lengths
      raise `ValueError`. */
  ghost predicate NlzChecksLengths(nm: Provider) {
    forall y: seq<real>, a: seq<real>, l: Matrix, n: nat :: |y| != |a| ==> nm.nlz(y, a, l, n) == Err(ValueError(ShapeMismatch))
  }

  /** The distance helper's shape promise: for A with N rows and B with M rows it
      returns an N x M matrix. */
  ghost predicate PairwiseShaped(nm: Provider) {
    forall a: Matrix, b: Matrix :: Height(nm.sqdist(a, b)) == Height(a) && nm.sqdist(a, b).width == Height(b)
  }
}

=== FILE: regression.dfy ===
/** The `GPR` class of nispat/gp.py as a state machine: an immutable record of the
    object's attributes threaded through one pure function per method. The
    posterior cache is the single slot (K, L, alpha) keyed by the pair
    (hyp, covfunc identity); X and y are not part of the key. */
module Regression {
  import opened Failures
  import opened Floats
  import opened Matrices
  import opened Numerics
  import opened Covariance

  /** The attributes of a GPR object. `None` marks an attribute that has never
      been assigned, except for `hyp`, where it is the initial `np.nan`. */
  datatype Gpr = Gpr(
    hyp: Option<seq<real>>,
    nlZ: Float,
    n: Option<nat>,
    d: Option<nat>,
    k: Option<Matrix>,
    l: Option<Matrix>,
    alpha: Option<seq<real>>,
    covfunc: Option<CovFunc>,
    dnlZ: Option<seq<Float>>,
    optimizer: Option<string>,
    nIter: nat,
    tol: real,
    verbose: bool)

  /** The object after a method call that was handed a covariance function, the
      caller's covariance object after the call (CovLin may have set its notice
      flag), and the return value or the exception raised. */
  datatype Step<T> = Step(gp: Gpr, cf: CovFunc, res: Result<T>)

  /** The object after a method call that takes no covariance function. */
  datatype Reply<T> = Reply(gp: Gpr, res: Result<T>)

  /** `predict`'s return value `(ymu, ys2)`. */
  datatype Prediction = Prediction(mean: seq<real>, variance: Matrix)

  /** The attributes `__init__` assigns before any posterior exists. */
  function Empty(nIter: nat, tol: real, verbose: bool): Gpr {
    Gpr(None, NaN, None, None, None, None, None, None, None, None, nIter, tol, verbose)
  }

  /** Every attribute a posterior read needs exists once `alpha` does: `post`
      assigns K, L, alpha, hyp and covfunc in one run, after N and D. */
  predicate Inv(g: Gpr) {
    g.alpha.Some? ==>
      g.hyp.Some? && g.covfunc.Some? && g.k.Some? && g.l.Some? && g.n.Some? && g.d.Some?
  }

  /** `np.asarray(hyp == self.hyp).all()`. The initial NaN compares unequal to
      every entry, so only the empty vector, with no entries to compare, matches it. */
  predicate HypMatches(h: seq<real>, stored: Option<seq<real>>) {
    match stored
    case None => |h| == 0
    case Some(s) => h == s
  }

  /** `_updatepost(hyp, covfunc)`: true when the cached posterior must be recomputed. */
  predicate Stale(g: Gpr, h: seq<real>, cf: CovFunc)
    ensures g.alpha.None? || g.covfunc.None? ==> Stale(g, h, cf)
    ensures g.covfunc.Some? && g.covfunc.value.id != cf.id ==> Stale(g, h, cf)
    ensures g.hyp.Some? && g.hyp.value != h ==> Stale(g, h, cf)
  {
    !(HypMatches(h, g.hyp) && g.alpha.Some? && g.covfunc.Some? && g.covfunc.value.id == cf.id)
  }

  /** The freshness test says "fresh" exactly when hyp equals the stored vector,
      a posterior exists, and the covariance object is the stored one. */
  lemma StaleIff(g: Gpr, h: seq<real>, cf: CovFunc)
    requires Inv(g)
    ensures !Stale(g, h, cf) <==>
      g.hyp == Some(h) && g.alpha.Some? && g.covfunc.Some? && g.covfunc.value.id == cf.id
  {
  }

  /** Before the first posterior every key is stale, whatever hyp is. */
  lemma EmptyIsStale(nIter: nat, tol: real, verbose: bool, h: seq<real>, cf: CovFunc)
    ensures Inv(Empty(nIter, tol, verbose))
    ensures Stale(Empty(nIter, tol, verbose), h, cf)
    ensures HypMatches(h, Empty(nIter, tol, verbose).hyp) <==> |h| == 0
  {
  }

  /** `self.N, self.D = X.shape`. */
  function Shaped(g: Gpr, x: Matrix): Gpr {
    g.(n := Some(Height(x)), d := Some(x.width))
  }

  /** The posterior for (hyp, covfunc, X, y) as the rest of the class reads it:
      K = cov(theta, X), L = chol(K + sn2*I) and alpha = solve(L.T, solve(L, y)),
      with sn2 = exp(2*hyp[0]) and theta = hyp[1:]. The first step that raises
      decides the exception. */
  function Posterior(nm: Provider, hyp: seq<real>, cf: CovFunc, x: Matrix, y: seq<real>)
    : Result<(Matrix, Matrix, seq<real>)>
    requires |hyp| > 0
  {
    match Cov(nm, cf, Some(hyp[1..]), x, None)
    case Err(e) => Err(e)
    case Ok(k) =>
      match nm.chol(k, nm.exp(2.0 * hyp[0]), Height(x))
      case Err(e) => Err(e)
      case Ok(l) =>
        match nm.solve(l, y)
        case Err(e) => Err(e)
        case Ok(a) => Ok((k, l, a))
  }

  /** The body of `post` below the freshness test. Assigns K, then L, then alpha,
      hyp and covfunc; an exception leaves the later attributes as they were. */
  function Recompute(nm: Provider, g: Gpr, hyp: seq<real>, cf: CovFunc, x: Matrix, y: seq<real>): (r: Step<()>)
    requires |hyp| > 0
    ensures r.cf.id == cf.id
    ensures r.res.Ok? ==> r.gp.alpha.Some? && r.gp.hyp == Some(hyp) && r.gp.covfunc == Some(r.cf)
    ensures r.res.Ok? ==> r.gp.k.Some? && r.gp.l.Some?
    ensures r.res.Err? ==> r.gp.hyp == g.hyp && r.gp.alpha == g.alpha && r.gp.covfunc == g.covfunc
    ensures r.gp.n == g.n && r.gp.d == g.d && r.gp.nlZ == g.nlZ && r.gp.dnlZ == g.dnlZ
    ensures r.gp.optimizer == g.optimizer
    ensures r.gp.k.None? ==> g.k.None?
    ensures r.gp.l.None? ==> g.l.None?
    ensures r.res.Ok? <==> Posterior(nm, hyp, cf, x, y).Ok?
    ensures r.res.Ok? ==>
      var p := Posterior(nm, hyp, cf, x, y).value;
      r.gp.k == Some(p.0) && r.gp.l == Some(p.1) && r.gp.alpha == Some(p.2)
    ensures r.res.Err? ==> r.res.error == Posterior(nm, hyp, cf, x, y).error
    ensures Cov(nm, cf, Some(hyp[1..]), x, None).Ok? ==> r.gp.k == Some(Cov(nm, cf, Some(hyp[1..]), x, None).value)
    ensures Cov(nm, cf, Some(hyp[1..]), x, None).Err? ==> r.gp == g
  {
    var sn2 := nm.exp(2.0 * hyp[0]);
    var theta := Some(hyp[1..]);
    var cf1 := CovAfter(cf, theta);
    match Cov(nm, cf, theta, x, None)
    case Err(e) => Step(g, cf1, Err(e))
    case Ok(k) =>
      var g1 := g.(k := Some(k));
      match nm.chol(k, sn2, Height(x))
      case Err(e) => Step(g1, cf1, Err(e))
      case Ok(l) =>
        var g2 := g1.(l := Some(l));
        match nm.solve(l, y)
        case Err(e) => Step(g2, cf1, Err(e))
        case Ok(a) => Step(g2.(alpha := Some(a), hyp := Some(hyp), covfunc := Some(cf1)), cf1, Ok(()))
  }

  /** `post(hyp, covfunc, X, y)`. N and D are reassigned from X before the
      freshness test, so even a call that reuses the cache changes them. */
  function Post(nm: Provider, g: Gpr, hyp: seq<real>, cf: CovFunc, x: Matrix, y: seq<real>): (r: Step<()>)
    ensures r.gp.n == Some(Height(x)) && r.gp.d == Some(x.width)
    ensures r.cf.id == cf.id
    ensures !Stale(g, hyp, cf) ==> r == Step(Shaped(g, x), cf, Ok(()))
    ensures r.res.Ok? ==> !Stale(r.gp, hyp, cf)
    ensures Stale(g, hyp, cf) && r.res.Ok? ==> r.gp.hyp == Some(hyp) && r.gp.covfunc == Some(r.cf)
    ensures r.res.Err? ==> Stale(g, hyp, cf)
    ensures r.res.Err? ==> r.gp.hyp == g.hyp && r.gp.alpha == g.alpha && r.gp.covfunc == g.covfunc
    ensures r.gp.nlZ == g.nlZ && r.gp.dnlZ == g.dnlZ && r.gp.optimizer == g.optimizer
    ensures Stale(g, hyp, cf) && |hyp| == 0 ==> r.res == Err(IndexError)
    ensures Stale(g, hyp, cf) && |hyp| > 0 ==>
      && (r.res.Ok? <==> Posterior(nm, hyp, cf, x, y).Ok?)
      && (r.res.Ok? ==>
            var p := Posterior(nm, hyp, cf, x, y).value;
            r.gp.k == Some(p.0) && r.gp.l == Some(p.1) && r.gp.alpha == Some(p.2))
      && (r.res.Err? ==> r.res.error == Posterior(nm, hyp, cf, x, y).error)
    ensures Inv(g) ==> Inv(r.gp)
  {
    var g1 := Shaped(g, x);
    if !Stale(g1, hyp, cf) then Step(g1, cf, Ok(()))
    else if |hyp| == 0 then Step(g1, cf, Err(IndexError))
    else Recompute(nm, g1, hyp, cf, x, y)
  }

  /** A Cholesky factorisation that raises `LinAlgError` escapes a direct `post`,
      after K has been stored and before L, alpha, hyp and covfunc are. */
  lemma PostCholFailureEscapes(nm: Provider, g: Gpr, hyp: seq<real>, cf: CovFunc, x: Matrix, y: seq<real>)
    requires Stale(g, hyp, cf) && |hyp| > 0
    requires Cov(nm, cf, Some(hyp[1..]), x, None).Ok?
    requires nm.chol(Cov(nm, cf, Some(hyp[1..]), x, None).value, nm.exp(2.0 * hyp[0]), Height(x)) == Err(LinAlgError)
    ensures Post(nm, g, hyp, cf, x, y).res == Err(LinAlgError)
    ensures Post(nm, g, hyp, cf, x, y).gp == Shaped(g, x).(k := Some(Cov(nm, cf, Some(hyp[1..]), x, None).value))
  {
  }

  /** A `post` that finds its key fresh changes N and D and nothing else, whatever
      X and y are: the cache is reused for different training data. */
  lemma PostIgnoresData(nm: Provider, g: Gpr, hyp: seq<real>, cf: CovFunc, x: Matrix, y: seq<real>)
    requires !Stale(g, hyp, cf)
    ensures Post(nm, g, hyp, cf, x, y).res.Ok?
    ensures Post(nm, g, hyp, cf, x, y).gp.(n := g.n, d := g.d) == g
  {
  }

  /** After a successful `post`, repeating it with the same hyp and covariance
      object, on any data, recomputes nothing. */
  lemma PostThenPostReuses(nm: Provider, g: Gpr, hyp: seq<real>, cf: CovFunc, x: Matrix, y: seq<real>,
                           x2: Matrix, y2: seq<real>)
    requires Post(nm, g, hyp, cf, x, y).res.Ok?
    ensures var s := Post(nm, g, hyp, cf, x, y);
      Post(nm, s.gp, hyp, s.cf, x2, y2) == Step(Shaped(s.gp, x2), s.cf, Ok(()))
  {
  }

  /** `0.5*y.T.dot(alpha) + ...` on whatever posterior is in place, before the
      guard: `AttributeError` when none was ever computed, and the formula's own
      `ValueError` when y does not fit the cached alpha. */
  function CachedNlz(nm: Provider, g: Gpr, y: seq<real>): Result<Float> {
    if g.alpha.None? || g.l.None? || g.n.None? then Err(AttributeError)
    else nm.nlz(y, g.alpha.value, g.l.value, g.n.value)
  }

  /** `loglik`'s computation from the cached posterior, with the non-finite guard.
      It runs outside the `try`, so its exceptions escape. */
  function Objective(nm: Provider, g: Gpr, cf: CovFunc, y: seq<real>): (r: Step<Float>)
    ensures r.cf == cf
    ensures r.gp.(nlZ := g.nlZ) == g
    ensures r.res.Ok? <==> CachedNlz(nm, g, y).Ok?
    ensures r.res.Ok? ==> IsFinite(r.res.value) && r.gp.nlZ == r.res.value
    ensures r.res.Ok? ==> r.res.value == FixObjective(CachedNlz(nm, g, y).value)
    ensures r.res.Err? ==> r.gp == g && r.res.error == CachedNlz(nm, g, y).error
    ensures Inv(g) && g.alpha.Some? ==> CachedNlz(nm, g, y) == nm.nlz(y, g.alpha.value, g.l.value, g.n.value)
  {
    match CachedNlz(nm, g, y)
    case Err(e) => Step(g, cf, Err(e))
    case Ok(raw) =>
      var v := FixObjective(raw);
      Step(g.(nlZ := v), cf, Ok(v))
  }

  /** `loglik(hyp, covfunc, X, y)`. Only a recomputation that raises `ValueError`
      or `LinAlgError` is caught; the objective formula after the `try` may still
      raise. */
  function Loglik(nm: Provider, g: Gpr, hyp: seq<real>, cf: CovFunc, x: Matrix, y: seq<real>): (r: Step<Float>)
    ensures r.cf.id == cf.id
    ensures r.res.Ok? ==> IsFinite(r.res.value) && r.gp.nlZ == r.res.value
    ensures Stale(g, hyp, cf) && Post(nm, g, hyp, cf, x, y).res.Err? && Caught(Post(nm, g, hyp, cf, x, y).res.error)
      ==> r.res == Ok(Finite(Sentinel))
    ensures !(Stale(g, hyp, cf) && Post(nm, g, hyp, cf, x, y).res.Err?) ==>
      && (r.res.Ok? <==> CachedNlz(nm, r.gp, y).Ok?)
      && (r.res.Ok? ==> r.res.value == FixObjective(CachedNlz(nm, r.gp, y).value))
    ensures r.res.Err? ==>
      || (Stale(g, hyp, cf) && Post(nm, g, hyp, cf, x, y).res == Err(r.res.error) && !Caught(r.res.error))
      || CachedNlz(nm, r.gp, y) == Err(r.res.error)
    ensures Stale(g, hyp, cf) && Post(nm, g, hyp, cf, x, y).res.Err? && !Caught(Post(nm, g, hyp, cf, x, y).res.error)
      ==> r.res == Err(Post(nm, g, hyp, cf, x, y).res.error)
    ensures Stale(g, hyp, cf) ==> r.gp.(nlZ := g.nlZ) == Post(nm, g, hyp, cf, x, y).gp
    ensures !Stale(g, hyp, cf) ==> r.gp.(nlZ := g.nlZ) == g && r.cf == cf
    ensures Inv(g) ==> Inv(r.gp)
  {
    if Stale(g, hyp, cf) then
      var s := Post(nm, g, hyp, cf, x, y);
      if s.res.Err? then
        if Caught(s.res.error) then Step(s.gp.(nlZ := Finite(Sentinel)), s.cf, Ok(Finite(Sentinel)))
        else Step(s.gp, s.cf, Err(s.res.error))
      else Objective(nm, s.gp, s.cf, y)
    else Objective(nm, g, cf, y)
  }

  /** On a fresh key `loglik` evaluates the objective on the cached posterior,
      whatever X and y are: the guarded value when the formula succeeds, and the
      formula's exception otherwise. */
  lemma LoglikFreshReadsCache(nm: Provider, g: Gpr, hyp: seq<real>, cf: CovFunc, x: Matrix, y: seq<real>)
    requires Inv(g) && !Stale(g, hyp, cf)
    ensures var r := Loglik(nm, g, hyp, cf, x, y);
      match nm.nlz(y, g.alpha.value, g.l.value, g.n.value)
      case Ok(v) => r.res == Ok(FixObjective(v)) && r.gp == g.(nlZ := FixObjective(v))
      case Err(e) => r.res == Err(e) && r.gp == g
  {
  }

  /** Reusing a fresh key with a y whose length differs from the cached alpha
      makes `loglik` raise the dot product's `ValueError`: it is not caught,
      because it occurs after the `try`. */
  lemma LoglikFreshOtherLengthRaises(nm: Provider, g: Gpr, hyp: seq<real>, cf: CovFunc, x: Matrix, y: seq<real>)
    requires NlzChecksLengths(nm)
    requires Inv(g) && !Stale(g, hyp, cf) && |y| != |g.alpha.value|
    ensures Loglik(nm, g, hyp, cf, x, y).res == Err(ValueError(ShapeMismatch))
    ensures Loglik(nm, g, hyp, cf, x, y).gp == g
  {
  }

  /** `n` copies of `0.0`, as in `np.zeros(n)`. */
  function Zeros(n: nat): (z: seq<Float>)
    ensures |z| == n
  {
    seq(n, _ => Finite(0.0))
  }

  /** The term of covariance parameter k: `dcov` and then the trace formula
      `-0.5*np.sum(np.sum(Q*dK.T))`; either may raise. */
  function Term(nm: Provider, cf: CovFunc, theta: seq<real>, x: Matrix, q: Matrix, k: nat): (r: Result<Float>)
    ensures r.Ok? ==> Dcov(nm, cf, Some(theta), x, k).Ok?
    ensures Dcov(nm, cf, Some(theta), x, k).Err? ==> r == Err(Dcov(nm, cf, Some(theta), x, k).error)
  {
    match Dcov(nm, cf, Some(theta), x, k)
    case Err(e) => Err(e)
    case Ok(dk) => nm.covGrad(q, dk)
  }

  /** The loop of `dloglik` over covariance parameters `from`, `from+1`, ...: the
      terms computed before the first one that raises, and that exception. */
  function CovTerms(nm: Provider, cf: CovFunc, theta: seq<real>, x: Matrix, q: Matrix, from: nat)
    : (r: (seq<Float>, Option<Error>))
    requires from <= |theta|
    decreases |theta| - from
    ensures r.1.None? ==> |r.0| == |theta| - from
    ensures r.1.Some? ==> |r.0| < |theta| - from
    ensures forall k :: from <= k < from + |r.0| ==> Term(nm, cf, theta, x, q, k) == Ok(r.0[k - from])
    ensures r.1.Some? ==> Term(nm, cf, theta, x, q, from + |r.0|) == Err(r.1.value)
  {
    if from == |theta| then ([], None)
    else
      match Term(nm, cf, theta, x, q, from)
      case Err(e) => ([], Some(e))
      case Ok(t) =>
        var rest := CovTerms(nm, cf, theta, x, q, from + 1);
        var r := ([t] + rest.0, rest.1);
        assert forall k :: from < k < from + |r.0| ==> Term(nm, cf, theta, x, q, k) == Ok(r.0[k - from]);
        r
  }

  /** The gradient `dloglik` returns, given Q: the noise term first, then the term
      of covariance parameter i in position i+1 (`dnlZ[par+1]` at `dcov(par)`),
      each through the non-finite guard. */
  predicate GuardedGradient(nm: Provider, cf: CovFunc, sn2: real, theta: seq<real>, x: Matrix, q: Matrix, v: seq<Float>) {
    && |v| == |theta| + 1
    && v[0] == FixComponent(nm.noiseGrad(sn2, q))
    && forall i :: 0 <= i < |theta| ==>
         Term(nm, cf, theta, x, q, i).Ok? && v[i + 1] == FixComponent(Term(nm, cf, theta, x, q, i).value)
  }

  /** When every covariance term succeeds, guarding the noise term followed by
      the terms in order gives the gradient `GuardedGradient` describes. */
  lemma GuardedTerms(nm: Provider, cf: CovFunc, sn2: real, theta: seq<real>, x: Matrix, q: Matrix, raw: seq<Float>)
    requires CovTerms(nm, cf, theta, x, q, 0).1.None?
    requires raw == [nm.noiseGrad(sn2, q)] + CovTerms(nm, cf, theta, x, q, 0).0
      + Zeros(|theta| - |CovTerms(nm, cf, theta, x, q, 0).0|)
    ensures GuardedGradient(nm, cf, sn2, theta, x, q, FixGradient(raw))
    ensures forall i :: 0 <= i < |theta| ==> Dcov(nm, cf, Some(theta), x, i).Ok?
  {
    var terms := CovTerms(nm, cf, theta, x, q, 0).0;
    forall i | 0 <= i < |theta|
      ensures raw[i + 1] == terms[i] && Term(nm, cf, theta, x, q, i) == Ok(terms[i])
      ensures Dcov(nm, cf, Some(theta), x, i).Ok?
    {
      assert Term(nm, cf, theta, x, q, i).Ok?;
    }
  }

  /** The part of `dloglik` after the posterior is in place: Q, the noise term,
      the covariance terms, and the non-finite guard. `self.dnlZ` is assigned
      before the loop, so a `dcov` that raises leaves a partly filled vector. */
  function Gradient(nm: Provider, g: Gpr, cf: CovFunc, sn2: real, theta: seq<real>, x: Matrix)
    : (r: Step<seq<Float>>)
    ensures r.cf == cf
    ensures r.gp.(dnlZ := g.dnlZ) == g
    ensures r.res.Ok? ==> |r.res.value| == |theta| + 1 && r.gp.dnlZ == Some(r.res.value)
    ensures r.res.Ok? ==> forall i :: 0 <= i < |r.res.value| ==> IsFinite(r.res.value[i]) || r.res.value[i].NaN?
    ensures r.res.Ok? ==> forall i :: 0 <= i < |theta| ==> Dcov(nm, cf, Some(theta), x, i).Ok?
    ensures r.res.Ok? ==>
      && g.alpha.Some? && g.l.Some? && g.n.Some?
      && nm.precision(g.alpha.value, g.l.value, g.n.value).Ok?
      && GuardedGradient(nm, cf, sn2, theta, x, nm.precision(g.alpha.value, g.l.value, g.n.value).value, r.res.value)
    ensures r.gp.dnlZ != g.dnlZ ==> r.gp.dnlZ.Some? && |r.gp.dnlZ.value| == |theta| + 1
    ensures g.alpha.None? || g.l.None? || g.n.None? ==> r == Step(g, cf, Err(AttributeError))
    ensures g.alpha.Some? && g.l.Some? && g.n.Some? && nm.precision(g.alpha.value, g.l.value, g.n.value).Err? ==>
      r == Step(g, cf, Err(nm.precision(g.alpha.value, g.l.value, g.n.value).error))
    ensures g.alpha.Some? && g.l.Some? && g.n.Some? && nm.precision(g.alpha.value, g.l.value, g.n.value).Ok? ==>
      var q := nm.precision(g.alpha.value, g.l.value, g.n.value).value;
      var t := CovTerms(nm, cf, theta, x, q, 0);
      && (r.res.Ok? <==> t.1.None?)
      && (t.1.Some? ==>
            && r.res == Err(t.1.value)
            && r.gp.dnlZ == Some([nm.noiseGrad(sn2, q)] + t.0 + Zeros(|theta| - |t.0|)))
  {
    if g.alpha.None? || g.l.None? || g.n.None? then Step(g, cf, Err(AttributeError))
    else
      match nm.precision(g.alpha.value, g.l.value, g.n.value)
      case Err(e) => Step(g, cf, Err(e))
      case Ok(q) =>
        var terms := CovTerms(nm, cf, theta, x, q, 0);
        var raw := [nm.noiseGrad(sn2, q)] + terms.0 + Zeros(|theta| - |terms.0|);
        match terms.1
        case Some(e) => Step(g.(dnlZ := Some(raw)), cf, Err(e))
        case None =>
          var fixed := FixGradient(raw);
          GuardedTerms(nm, cf, sn2, theta, x, q, raw);
          Step(g.(dnlZ := Some(fixed)), cf, Ok(fixed))
  }

  /** The case in which `dloglik` recovers: the posterior was stale and its
      recomputation raised `ValueError` or `LinAlgError`. */
  predicate Recovers(nm: Provider, g: Gpr, hyp: seq<real>, cf: CovFunc, x: Matrix, y: seq<real>) {
    && |hyp| > 0
    && Stale(g, hyp, cf)
    && Post(nm, g, hyp, cf, x, y).res.Err?
    && Caught(Post(nm, g, hyp, cf, x, y).res.error)
  }

  /** `dloglik(hyp, covfunc, X, y)`. */
  function Dloglik(nm: Provider, g: Gpr, hyp: seq<real>, cf: CovFunc, x: Matrix, y: seq<real>): (r: Step<seq<Float>>)
    ensures r.cf.id == cf.id
    ensures |hyp| == 0 ==> r == Step(g, cf, Err(IndexError))
    ensures r.res.Ok? ==> forall i :: 0 <= i < |r.res.value| ==> IsFinite(r.res.value[i]) || r.res.value[i].NaN?
    ensures Recovers(nm, g, hyp, cf, x, y) ==>
      r.gp == Post(nm, g, hyp, cf, x, y).gp &&
      r.res == (if g.dnlZ.None? then Err(AttributeError) else Ok(SignAll(g.dnlZ.value)))
    ensures !Recovers(nm, g, hyp, cf, x, y) && r.res.Ok? ==>
      |r.res.value| == |hyp| && r.gp.dnlZ == Some(r.res.value)
    ensures !Recovers(nm, g, hyp, cf, x, y) && r.res.Ok? ==>
      var p := if Stale(g, hyp, cf) then Post(nm, g, hyp, cf, x, y).gp else g;
      && |hyp| > 0
      && p.alpha.Some? && p.l.Some? && p.n.Some?
      && nm.precision(p.alpha.value, p.l.value, p.n.value).Ok?
      && GuardedGradient(nm, r.cf, nm.exp(2.0 * hyp[0]), hyp[1..], x,
                         nm.precision(p.alpha.value, p.l.value, p.n.value).value, r.res.value)
    ensures |hyp| > 0 && !Stale(g, hyp, cf) ==> r.gp.(dnlZ := g.dnlZ) == g && r.cf == cf
    ensures |hyp| > 0 && Stale(g, hyp, cf) && Post(nm, g, hyp, cf, x, y).res.Err?
              && !Caught(Post(nm, g, hyp, cf, x, y).res.error) ==>
      var s := Post(nm, g, hyp, cf, x, y);
      r == Step(s.gp, s.cf, Err(s.res.error))
    ensures |hyp| > 0 && Refresh(nm, g, hyp, cf, x, y).res.Ok? ==>
      var s := Refresh(nm, g, hyp, cf, x, y);
      r == Gradient(nm, s.gp, s.cf, nm.exp(2.0 * hyp[0]), hyp[1..], x)
    ensures Inv(g) ==> Inv(r.gp)
  {
    if |hyp| == 0 then Step(g, cf, Err(IndexError))
    else
      var sn2 := nm.exp(2.0 * hyp[0]);
      var theta := hyp[1..];
      if Stale(g, hyp, cf) then
        var s := Post(nm, g, hyp, cf, x, y);
        if s.res.Err? then
          if !Caught(s.res.error) then Step(s.gp, s.cf, Err(s.res.error))
          else
            match s.gp.dnlZ
            case None => Step(s.gp, s.cf, Err(AttributeError))
            case Some(prev) => Step(s.gp, s.cf, Ok(SignAll(prev)))
        else Gradient(nm, s.gp, s.cf, sn2, theta, x)
      else Gradient(nm, g, cf, sn2, theta, x)
  }

  /** ASCII lower-casing of one character. */
  function LowerChar(c: char): char {
    if 'A' <= c <= 'Z' then (c as int + 32) as char else c
  }

  /** `str.lower()` on the characters that can lower-case to a letter of 'cg' or 'powell'. */
  function Lower(s: string): (r: string)
    ensures |r| == |s|
    ensures forall i :: 0 <= i < |s| ==> r[i] == LowerChar(s[i])
  {
    seq(|s|, i requires 0 <= i < |s| => LowerChar(s[i]))
  }

  function UpperChar(c: char): char
    requires 'a' <= c <= 'z'
  {
    (c as int - 32) as char
  }

  /** A string lower-cases to a lower-case word exactly when it spells that word
      with each letter in either case. */
  lemma LowerMatches(s: string, w: string)
    requires forall i :: 0 <= i < |w| ==> 'a' <= w[i] <= 'z'
    ensures Lower(s) == w <==>
      |s| == |w| && forall i :: 0 <= i < |s| ==> s[i] == w[i] || s[i] == UpperChar(w[i])
  {
  }

  /** 'cg' is recognised in exactly its four spellings. */
  lemma CgSpellings(s: string)
    ensures Lower(s) == "cg" <==> s == "cg" || s == "cG" || s == "Cg" || s == "CG"
  {
  }

  /** The optimizer names `estimate` accepts, in any letter case. */
  predicate Recognised(optimizer: string) {
    Lower(optimizer) == "cg" || Lower(optimizer) == "powell"
  }

  /** One evaluation the optimizer asks for: the objective or its gradient at a hyp. */
  datatype Call = ValueAt(hyp: seq<real>) | GradientAt(hyp: seq<real>)

  /** What scipy's optimizer did: the evaluations it requested, in order, and
      its output `out[0]` (the optimum) and `out[1]` (the objective there). */
  datatype Run = Run(calls: seq<Call>, xopt: seq<real>, fopt: Float)

  /** One evaluation on the object, keeping only whether it raised. */
  function Evaluate(nm: Provider, g: Gpr, cf: CovFunc, x: Matrix, y: seq<real>, c: Call): (r: Step<()>)
    ensures r.cf.id == cf.id
    ensures Inv(g) ==> Inv(r.gp)
  {
    match c
    case ValueAt(h) =>
      var s := Loglik(nm, g, h, cf, x, y);
      Step(s.gp, s.cf, Forget(s.res))
    case GradientAt(h) =>
      var s := Dloglik(nm, g, h, cf, x, y);
      Step(s.gp, s.cf, Forget(s.res))
  }

  /** The optimizer's evaluations run on the object in order; an exception stops
      the run. Powell's method is given no gradient, so without `withGradient`
      gradient requests do not reach the object. */
  function Replay(nm: Provider, g: Gpr, cf: CovFunc, x: Matrix, y: seq<real>, calls: seq<Call>, withGradient: bool)
    : (r: Step<()>)
    decreases |calls|
    ensures r.cf.id == cf.id
    ensures Inv(g) ==> Inv(r.gp)
  {
    if |calls| == 0 then Step(g, cf, Ok(()))
    else if calls[0].GradientAt? && !withGradient then Replay(nm, g, cf, x, y, calls[1..], withGradient)
    else
      var s := Evaluate(nm, g, cf, x, y, calls[0]);
      if s.res.Err? then s else Replay(nm, s.gp, s.cf, x, y, calls[1..], withGradient)
  }

  /** `estimate(hyp0, covfunc, X, y, optimizer)`, given what the optimizer started
      from `hyp0` did. hyp and nlZ are overwritten with the optimizer's output;
      the posterior is left as the last evaluation made it. */
  function Estimate(nm: Provider, g: Gpr, hyp0: seq<real>, cf: CovFunc, x: Matrix, y: seq<real>,
                    optimizer: string, run: Run): (r: Step<seq<real>>)
    ensures r.cf.id == cf.id
    ensures !Recognised(optimizer) ==> r == Step(g, cf, Err(ValueError(UnknownOptimizer)))
    ensures Recognised(optimizer) ==>
      (r.res.Ok? <==> Replay(nm, g, cf, x, y, run.calls, Lower(optimizer) == "cg").res.Ok?)
    ensures r.res.Ok? ==>
      r.res.value == run.xopt && r.gp.hyp == Some(run.xopt) && r.gp.nlZ == run.fopt &&
      r.gp.optimizer == Some(optimizer)
    ensures r.res.Ok? ==>
      var s := Replay(nm, g, cf, x, y, run.calls, Lower(optimizer) == "cg").gp;
      r.gp.(hyp := s.hyp, nlZ := s.nlZ, optimizer := s.optimizer) == s
    ensures Recognised(optimizer) && Replay(nm, g, cf, x, y, run.calls, Lower(optimizer) == "cg").res.Err? ==>
      var s := Replay(nm, g, cf, x, y, run.calls, Lower(optimizer) == "cg");
      r == Step(s.gp, s.cf, Err(s.res.error))
    ensures Inv(g) ==> Inv(r.gp)
  {
    if !Recognised(optimizer) then Step(g, cf, Err(ValueError(UnknownOptimizer)))
    else
      var s := Replay(nm, g, cf, x, y, run.calls, Lower(optimizer) == "cg");
      if s.res.Err? then Step(s.gp, s.cf, Err(s.res.error))
      else Step(s.gp.(hyp := Some(run.xopt), nlZ := run.fopt, optimizer := Some(optimizer)), s.cf, Ok(run.xopt))
  }

  /** The predictive mean and variance from the cached posterior. */
  function Predictive(nm: Provider, g: Gpr, sn2: real, ks: Matrix, kss: Matrix): (r: Result<Prediction>)
    ensures r.Ok? <==>
      && g.alpha.Some? && g.l.Some?
      && nm.mean(ks, g.alpha.value).Ok? && nm.variance(kss, g.l.value, ks, sn2).Ok?
    ensures r.Ok? ==> nm.mean(ks, g.alpha.value) == Ok(r.value.mean)
    ensures r.Ok? ==> nm.variance(kss, g.l.value, ks, sn2) == Ok(r.value.variance)
  {
    if g.alpha.None? || g.l.None? then Err(AttributeError)
    else
      match nm.mean(ks, g.alpha.value)
      case Err(e) => Err(e)
      case Ok(mu) =>
        match nm.variance(kss, g.l.value, ks, sn2)
        case Err(e) => Err(e)
        case Ok(v) => Ok(Prediction(mu, v))
  }

  /** `predict`'s first two lines: `post` on the stored covariance object when
      the key is stale. */
  function Refresh(nm: Provider, g: Gpr, hyp: seq<real>, cf: CovFunc, x: Matrix, y: seq<real>): Step<()> {
    if Stale(g, hyp, cf) then Post(nm, g, hyp, cf, x, y) else Step(g, cf, Ok(()))
  }

  /** `predict(hyp, X, y, Xs)`, with the covariance object stored by the last
      successful `post`. Its two `cov` calls may set CovLin's notice flag on it. */
  function Predict(nm: Provider, g: Gpr, hyp: seq<real>, x: Matrix, y: seq<real>, xs: Matrix): (r: Reply<Prediction>)
    ensures g.covfunc.None? ==> r == Reply(g, Err(AttributeError))
    ensures g.covfunc.Some? && !Stale(g, hyp, g.covfunc.value) ==> r.gp.(covfunc := g.covfunc) == g
    ensures g.covfunc.Some? && Stale(g, hyp, g.covfunc.value) ==>
      var p := Post(nm, g, hyp, g.covfunc.value, x, y).gp;
      r.gp.(covfunc := p.covfunc) == p
    ensures g.covfunc.Some? ==> r.gp.covfunc.Some? && r.gp.covfunc.value.id == g.covfunc.value.id
    ensures r.res.Ok? ==> r.gp.alpha.Some? && !Stale(r.gp, hyp, r.gp.covfunc.value)
    ensures g.covfunc.Some? && Refresh(nm, g, hyp, g.covfunc.value, x, y).res.Err? ==>
      var s := Refresh(nm, g, hyp, g.covfunc.value, x, y);
      r == Reply(s.gp, Err(s.res.error))
    ensures g.covfunc.Some? && Refresh(nm, g, hyp, g.covfunc.value, x, y).res.Ok? && |hyp| == 0 ==>
      r.res == Err(IndexError)
    ensures g.covfunc.Some? && Refresh(nm, g, hyp, g.covfunc.value, x, y).res.Ok? && |hyp| > 0 ==>
      var s := Refresh(nm, g, hyp, g.covfunc.value, x, y);
      var theta := Some(hyp[1..]);
      r.res.Ok? <==>
        && Cov(nm, s.cf, theta, xs, Some(x)).Ok?
        && Cov(nm, CovAfter(s.cf, theta), theta, xs, None).Ok?
        && Predictive(nm, s.gp, nm.exp(2.0 * hyp[0]),
                      Cov(nm, s.cf, theta, xs, Some(x)).value,
                      Cov(nm, CovAfter(s.cf, theta), theta, xs, None).value).Ok?
    ensures r.res.Ok? ==>
      && g.covfunc.Some? && |hyp| > 0
      && var s := Refresh(nm, g, hyp, g.covfunc.value, x, y);
         var theta := Some(hyp[1..]);
         && Cov(nm, s.cf, theta, xs, Some(x)).Ok?
         && Cov(nm, CovAfter(s.cf, theta), theta, xs, None).Ok?
         && r.res == Predictive(nm, r.gp, nm.exp(2.0 * hyp[0]),
                                Cov(nm, s.cf, theta, xs, Some(x)).value,
                                Cov(nm, CovAfter(s.cf, theta), theta, xs, None).value)
    ensures Inv(g) ==> Inv(r.gp)
  {
    match g.covfunc
    case None => Reply(g, Err(AttributeError))
    case Some(cf) =>
      var s := Refresh(nm, g, hyp, cf, x, y);
      if s.res.Err? then Reply(s.gp, Err(s.res.error))
      else if |hyp| == 0 then Reply(s.gp, Err(IndexError))
      else
        var sn2 := nm.exp(2.0 * hyp[0]);
        var theta := Some(hyp[1..]);
        var c1 := CovAfter(s.cf, theta);
        match Cov(nm, s.cf, theta, xs, Some(x))
        case Err(e) => Reply(s.gp.(covfunc := Some(c1)), Err(e))
        case Ok(ks) =>
          var c2 := CovAfter(c1, theta);
          match Cov(nm, c1, theta, xs, None)
          case Err(e) => Reply(s.gp.(covfunc := Some(c2)), Err(e))
          case Ok(kss) =>
            var g2 := s.gp.(covfunc := Some(c2));
            Reply(g2, Predictive(nm, g2, sn2, ks, kss))
  }

  /** After a successful `estimate`, `predict` at the returned hyp never
      recomputes: the key matches because hyp was overwritten, so the cached
      alpha and L are those of the optimizer's last evaluation, for any data. */
  lemma EstimateThenPredictReuses(nm: Provider, g: Gpr, hyp0: seq<real>, cf: CovFunc, x: Matrix, y: seq<real>,
                                  optimizer: string, run: Run, x2: Matrix, y2: seq<real>, xs: Matrix)
    requires Estimate(nm, g, hyp0, cf, x, y, optimizer, run).res.Ok?
    requires Estimate(nm, g, hyp0, cf, x, y, optimizer, run).gp.alpha.Some?
    requires Estimate(nm, g, hyp0, cf, x, y, optimizer, run).gp.covfunc.Some?
    ensures var e := Estimate(nm, g, hyp0, cf, x, y, optimizer, run).gp;
      var s := Replay(nm, g, cf, x, y, run.calls, Lower(optimizer) == "cg").gp;
      var p := Predict(nm, e, run.xopt, x2, y2, xs).gp;
      p.alpha == s.alpha && p.l == s.l && p.k == s.k
    ensures var e := Estimate(nm, g, hyp0, cf, x, y, optimizer, run).gp;
      var s := Replay(nm, g, cf, x, y, run.calls, Lower(optimizer) == "cg").gp;
      var p := Predict(nm, e, run.xopt, x2, y2, xs);
      p.res.Ok? ==>
        && |run.xopt| > 0
        && Cov(nm, e.covfunc.value, Some(run.xopt[1..]), xs, Some(x2)).Ok?
        && nm.mean(Cov(nm, e.covfunc.value, Some(run.xopt[1..]), xs, Some(x2)).value, s.alpha.value)
             == Ok(p.res.value.mean)
  {
  }

  /** `GPR(hyp, covfunc, X, y, n_iter, tol, verbose)`: `post` runs only when hyp,
      X and y are all given, and its exceptions escape the constructor. */
  function Init(nm: Provider, hyp: Option<seq<real>>, cf: Option<CovFunc>, x: Option<Matrix>, y: Option<seq<real>>,
                nIter: nat, tol: real, verbose: bool): (r: Reply<()>)
    ensures Inv(r.gp)
    ensures !(hyp.Some? && x.Some? && y.Some?) ==> r == Reply(Empty(nIter, tol, verbose), Ok(()))
    ensures hyp.Some? && x.Some? && y.Some? && cf.None? ==>
      r.res == Err(if |hyp.value| == 0 then IndexError else AttributeError)
    ensures r.res.Ok? && hyp.Some? && x.Some? && y.Some? ==>
      r.gp.hyp == hyp && r.gp.alpha.Some? && r.gp.n == Some(Height(x.value))
    ensures hyp.Some? && x.Some? && y.Some? && cf.Some? ==>
      var s := Post(nm, Empty(nIter, tol, verbose), hyp.value, cf.value, x.value, y.value);
      r == Reply(s.gp, s.res)
  {
    var g := Empty(nIter, tol, verbose);
    if hyp.Some? && x.Some? && y.Some? then
      match cf
      case Some(c) =>
        var s := Post(nm, g, hyp.value, c, x.value, y.value);
        Reply(s.gp, s.res)
      case None =>
        Reply(Shaped(g, x.value), Err(if |hyp.value| == 0 then IndexError else AttributeError))
    else Reply(g, Ok(()))
  }
}

=== FILE: scenarios.dfy ===
/** Worked cases of nispat/gp.py's behaviour, stated on concrete inputs or on a
    concrete numerics provider. */
module Scenarios {
  import opened Failures
  import opened Floats
  import opened Matrices
  import opened Numerics
  import opened Covariance
  import opened Regression

  /** The column X = [[1], [2], [3]]. */
  function Column123(): Matrix {
    Mat(1, [[1.0], [2.0], [3.0]])
  }

  /** The linear kernel without hyperparameters gives exactly X . X^T, and asking
      for the derivative with respect to parameter 1 raises `ValueError`. */
  lemma LinearKernelOnColumn(nm: Provider, id: nat)
    ensures Cov(nm, CovFunc(id, Lin(false)), None, Column123(), None)
      == Ok(Mat(3, [[1.0, 2.0, 3.0], [2.0, 4.0, 6.0], [3.0, 6.0, 9.0]]))
    ensures Dcov(nm, CovFunc(id, Lin(false)), None, Column123(), 1) == Err(ValueError(InvalidParameter))
    ensures Dcov(nm, CovFunc(id, Lin(false)), None, Column123(), 0) == Ok(Scalar(0.0))
  {
    var x := Column123();
    var k := Gram(x, x);
    var want := Mat(3, [[1.0, 2.0, 3.0], [2.0, 4.0, 6.0], [3.0, 6.0, 9.0]]);
    forall i, j | 0 <= i < 3 && 0 <= j < 3
      ensures k.rows[i][j] == want.rows[i][j]
    {
      assert Dot(x.rows[i], x.rows[j]) == x.rows[i][0] * x.rows[j][0] + Dot([], []);
    }
    SameEntries(k, want);
  }

  /** A GPR with a fresh CovLin and the one-entry hyp its zero parameters call
      for cannot evaluate anything: `cov` reads `theta[0]` of the empty theta,
      and the `IndexError` is not among the exceptions `loglik` catches. */
  lemma LinWithoutThetaRaises(nm: Provider, g: Gpr, h0: real, id: nat, x: Matrix, y: seq<real>)
    requires Stale(g, [h0], CovFunc(id, Lin(false)))
    ensures Loglik(nm, g, [h0], CovFunc(id, Lin(false)), x, y).res == Err(IndexError)
    ensures Dloglik(nm, g, [h0], CovFunc(id, Lin(false)), x, y).res == Err(IndexError)
  {
  }

  /** NaN is the one non-finite value the gradient guard lets through. */
  lemma GradientGuardKeepsNaN()
    ensures FixGradient([NaN, PosInf, NegInf, Finite(2.0)])
      == [NaN, Finite(Sentinel), Finite(-Sentinel), Finite(2.0)]
  {
  }

  /** A numerics provider simple enough to compute with: `exp` is the identity,
      the Cholesky factor is the 1 x 1 matrix [[sn2]], every entry of alpha is that
      entry, the objective is 0 when y and alpha have the same length and raises
      `ValueError` otherwise, and the predictive mean is alpha itself. */
  function Toy(): Provider {
    Provider(
      (r: real) => r,
      (a: real, b: real) => a,
      (a: Matrix, b: Matrix) => a,
      (k: Matrix, sn2: real, n: nat) => Ok(Mat(1, [[sn2]])),
      (l: Matrix, y: seq<real>) =>
        if |l.rows| > 0 && l.width > 0 then var c := l.rows[0][0]; Ok(seq(|y|, _ => c)) else Ok([]),
      (y: seq<real>, a: seq<real>, l: Matrix, n: nat) =>
        if |y| == |a| then Ok(Finite(0.0)) else Err(ValueError(ShapeMismatch)),
      (a: seq<real>, l: Matrix, n: nat) => Ok(l),
      (sn2: real, q: Matrix) => Finite(0.0),
      (q: Matrix, dk: Deriv) => Ok(Finite(0.0)),
      (ks: Matrix, a: seq<real>) => Ok(a),
      (kss: Matrix, l: Matrix, ks: Matrix, sn2: real) => Ok(kss))
  }

  /** The toy posterior at a one-entry hyp [h] on three targets: alpha is 2h three
      times. */
  lemma ToyPosterior(g: Gpr, h: real, cf: CovFunc, x: Matrix, y: seq<real>)
    requires Stale(g, [h], cf) && |y| == 3 && cf.kind == Lin(true)
    ensures Post(Toy(), g, [h], cf, x, y).res.Ok?
    ensures Post(Toy(), g, [h], cf, x, y).gp.alpha == Some([2.0 * h, 2.0 * h, 2.0 * h])
  {
    var c := 2.0 * h;
    assert Toy().chol(Gram(x, x), c, Height(x)) == Ok(Mat(1, [[c]]));
    var v := seq(|y|, _ => c);
    assert v == [c, c, c] by {
      assert |v| == 3 && v[0] == c && v[1] == c && v[2] == c;
    }
    assert Toy().solve(Mat(1, [[c]]), y) == Ok(v);
  }

  /** `estimate` evaluates at hyp [1] and reports the optimum [3]; `predict` at [3]
      then answers with the posterior of [1] (mean [2, 2, 2]), although a posterior
      computed at [3] has alpha [6, 6, 6]. */
  lemma PredictAfterEstimateUsesStalePosterior(id: nat)
    ensures var cf := CovFunc(id, Lin(true));
      var x := Column123();
      var y := [0.0, 1.0, 4.0];
      var e := Estimate(Toy(), Empty(1000, 0.001, false), [1.0], cf, x, y, "cg",
                        Run([ValueAt([1.0])], [3.0], Finite(0.0)));
      && e.res == Ok([3.0])
      && Predict(Toy(), e.gp, [3.0], x, y, x).res.Ok?
      && Predict(Toy(), e.gp, [3.0], x, y, x).res.value.mean == [2.0, 2.0, 2.0]
      && Post(Toy(), Empty(1000, 0.001, false), [3.0], cf, x, y).gp.alpha == Some([6.0, 6.0, 6.0])
  {
    var cf := CovFunc(id, Lin(true));
    var x := Column123();
    var y := [0.0, 1.0, 4.0];
    var g0 := Empty(1000, 0.001, false);
    assert Lower("cg") == "cg";
    ToyPosterior(g0, 1.0, cf, x, y);
    ToyPosterior(g0, 3.0, cf, x, y);
    var l1 := Loglik(Toy(), g0, [1.0], cf, x, y);
    assert l1.res.Ok?;
    var e := Estimate(Toy(), g0, [1.0], cf, x, y, "cg", Run([ValueAt([1.0])], [3.0], Finite(0.0)));
    assert e.gp.alpha == Some([2.0, 2.0, 2.0]);
    assert !Stale(e.gp, [3.0], e.gp.covfunc.value);
  }
}
